=== FILE: README.md ===
# TokenTrackr token logic in Dafny

This project models the token-interaction logic of TokenTrackr, a small web wallet front end. It covers four parts:

- the **watch list**: an ordered list of token addresses, written through to browser storage under the slot `"tokens"`, with a refresh that reads every listed token's name and balance;
- the **allowance screen**: a "check" mode that reads what a spender contract may move from the user's account, and an "approve" mode that grants an allowance after a balance pre-flight check;
- the **transfer screen**: choosing the native asset (ETH), a catalogue token or a custom token address, then sending an amount and showing the mined transaction's details;
- the **popular-token catalogue** that all three screens offer.

Each React handler is a pure function from the component state to a `Step`. A `Step` holds the new state, the ledger requests the handler attempted (in order) and the browser alert it raised, if any. Every awaited provider or contract call is an oracle outcome: the `Chain` value answers each question with `Returned(v)` or `Threw`. The ethers.js helpers and the JavaScript `parseFloat` comparison are fields of a `Library` value. `formatEther` and `parseEther` are `formatUnits` and `parseUnits` with 18 decimals, and the gwei display uses 9, as in ethers. Because handlers report their requests, the contracts can state "nothing reached the ledger" and "no transaction was submitted" directly.

Modules, one per file:

- `Ledger` (`ledger.dfy`): the oracle and trace types.
- `PopularTokens` (`popular_tokens.dfy`)
- `WatchList` (`watch_list.dfy`)
- `TokenAllowance` (`token_allowance.dfy`)
- `TokenTransfer` (`token_transfer.dfy`)

Each screen also has an `Event` type and a `Run` function over event sequences. These carry the invariants that hold between any two user actions.

Notes on the source:

- `TokenAllowance.jsx` line 13 evaluates `allowance` before its `const` declaration on line 14. In JavaScript that throws a ReferenceError when the component renders. The model describes the handlers as they are evidently meant to run and does not encode that crash.
- The allowance screen builds `ethers.Contract` objects and calls `getSigner()` on a WalletConnect provider object rather than an ethers provider. Whether those calls work is a property of the foreign libraries. The `Chain` oracle covers both outcomes.

Notes on what the code does:

- Adding to the watch list validates by reading the token contract, not by checking address syntax.
- "Already listed" is exact string equality. The same address in a different letter case is listed twice.
- The approval amount is only required to be non-empty.
- The allowance check requires only non-empty addresses.
- The transfer recipient is not validated before sending. The browser's `required` attribute only rejects an empty field.

## Model

| member | source | states |
|---|---|---|
| PopularTokens.Catalogue | src/PopularTokens.js:1-32 | exactly six entries; each has a symbol, a non-empty address and a logo; no symbol is "ETH"; the addresses are pairwise distinct |
| PopularTokens.WithoutNative | src/components/TokenAllowance/TokenAllowance.jsx:155-156 | the filter keeps exactly the entries whose symbol is not "ETH" and never grows the list |
| PopularTokens.WithoutNativeKeeps | src/PopularTokens.js:3-28 | a list with no "ETH" symbol passes the filter unchanged |
| PopularTokens.NativeEntryFilteredAway | src/components/TokenTransfer/TokenTransfer.jsx:26-29 | prepending the ETH entry and then filtering out "ETH" gives back any list that has no "ETH" entry of its own |
| PopularTokens.ShownIsCatalogue | src/components/TokenTransfer/TokenTransfer.jsx:175-176 | the logos shown are exactly the catalogue, in catalogue order, so their addresses are distinct |
| WatchList.Init | src/components/Watchlist/WatchList.jsx:12-16 | the first list is the stored list when the slot exists, otherwise empty; storage and memory agree from the start |
| WatchList.ValidateToken | src/components/Watchlist/WatchList.jsx:32-48 | data is returned iff a provider exists and the name, decimals and balance calls all succeed; the data is the name and the balance formatted with the token's decimals; no provider means no ledger request |
| WatchList.AddToken | src/components/Watchlist/WatchList.jsx:51-69 | empty input is a no-op; the ledger requests are exactly the validation's, made before the duplicate check; the list grows iff the address is valid and not yet listed, and then by exactly that address at the end, clearing the input; otherwise list, storage and the typed input are untouched; failed validation alerts; the invariant is kept |
| WatchList.AddPopularToken | src/components/Watchlist/WatchList.jsx:72-85 | an already-listed address makes no ledger request and changes nothing; otherwise the address is appended iff validation succeeds, with write-through to storage |
| WatchList.Without | src/components/Watchlist/WatchList.jsx:89 | the result holds every element except the removed address, with each kept element's count unchanged; an absent address leaves the list as it is |
| WatchList.RemoveToken | src/components/Watchlist/WatchList.jsx:88-92 | the list loses every occurrence of the address; storage is written with the new list; an absent address leaves the list unchanged; no duplicates are introduced |
| WatchList.WithoutKeepsNoDuplicates | src/components/Watchlist/WatchList.jsx:89 | filtering a duplicate-free list gives a duplicate-free list |
| WatchList.WithoutConcat | src/components/Watchlist/WatchList.jsx:89 | the filter distributes over concatenation, so kept entries stay in their original order |
| WatchList.AddThenRemove | src/components/Watchlist/WatchList.jsx:51-92 | removing an address just added restores the previous list |
| WatchList.RemoveIdempotent | src/components/Watchlist/WatchList.jsx:88-92 | removing the same address twice equals removing it once |
| WatchList.AddPopularTwice | src/components/Watchlist/WatchList.jsx:72-85 | a second click on the same popular token changes nothing, and a listed address occurs exactly once |
| WatchList.Collect | src/components/Watchlist/WatchList.jsx:98-109 | the table built by the loop has exactly the listed tokens as keys; each maps to its read name and balance, or to the `Error`/`Error` placeholder when its validation fails; no transaction is submitted |
| WatchList.FetchTokenData | src/components/Watchlist/WatchList.jsx:96-113 | without a provider nothing changes; otherwise every listed token gets an entry; nothing but the table changes, so a failed read evicts nothing from the list or storage |
| WatchList.RunKeepsValid | src/components/Watchlist/WatchList.jsx:11-92 | after any sequence of typing, adds, removes and refreshes, with the ledger free to change between actions (the provider appearing after the first render included), the list has no duplicates and restoring from storage yields exactly the in-memory list |
| WatchList.RefreshExample | src/components/Watchlist/WatchList.jsx:96-110 | for the list ["T1","T2"], where T1 reads as ("Foo","3.0") and T2's calls fail, the table is {T1: Foo/3.0, T2: Error/Error} and both tokens stay listed and stored |
| TokenAllowance.Init | src/components/TokenAllowance/TokenAllowance.jsx:11-21 | the screen starts in check mode with no approval in progress |
| TokenAllowance.ExactlyOnePanel | src/components/TokenAllowance/TokenAllowance.jsx:168-195 | when the mode is "check" or "approve", exactly one of the two panels is shown |
| TokenAllowance.SetMode | src/components/TokenAllowance/TokenAllowance.jsx:139-152 | the toggles set the mode to one of its two values, select the requested panel and change nothing else |
| TokenAllowance.CheckAllowance | src/components/TokenAllowance/TokenAllowance.jsx:58-85 | a missing address sets the error and makes no request; the owner is the non-empty stored wallet address, otherwise the signer; an allowance is shown iff both the owner lookup and the allowance read succeed; it is then the 18-decimal formatting of the value read for that owner and spender, and the error is cleared; failure shows the error and clears the allowance; no transaction is submitted |
| TokenAllowance.ApproveTokens | src/components/TokenAllowance/TokenAllowance.jsx:88-128 | a missing field sets the error and makes no request; the error becomes "Insufficient…" exactly when every read succeeds and the balance is below the amount, and then nothing is submitted; once the signer and balance reads succeed, the balance is not below the amount and the amount parses, the planned approve is submitted, and nothing else ever is; the error ends up cleared iff every read succeeds, the balance is not below the amount, the amount parses and the approve is submitted and mined; success shows the success message and clears the allowance; every other failure clears the success message; whenever an error is shown the allowance on display is kept; no approval is left in progress; form fields are untouched |
| TokenAllowance.SubmitApproval | src/components/TokenAllowance/TokenAllowance.jsx:110-127 | the planned approve is the one transaction submitted; the success message shows and the allowance clears iff it is submitted and mined; otherwise the error is shown, the success message cleared and the allowance kept |
| TokenAllowance.SelectTokenAsWritten | src/components/TokenAllowance/TokenAllowance.jsx:51-55 | the selection effect as written: the field is refilled only when the selected address differs from the previous selection, and nothing but the field and the selection changes |
| TokenAllowance.ReselectKeepsEditedAddress | src/components/TokenAllowance/TokenAllowance.jsx:131-133 | as written, clicking USDC, editing the field and clicking USDC again leaves the edited text in the field |
| TokenAllowance.SelectToken | src/components/TokenAllowance/TokenAllowance.jsx:131-133 | selecting a token always puts its address in the token field and changes nothing else |
| TokenAllowance.SelectPopularFillsAddress | src/components/TokenAllowance/TokenAllowance.jsx:154-165 | every displayed logo is a catalogue token; as written, clicking the i-th one puts its address in the field unless it is already selected, in which case the field keeps its text; the corrected selection always puts the address there |
| TokenAllowance.RunKeepsMode | src/components/TokenAllowance/TokenAllowance.jsx:18-20 | after any sequence of actions, with the ledger free to change between them, the mode is "check" or "approve", exactly one panel shows and no approval is in progress |
| TokenTransfer.Init | src/components/TokenTransfer/TokenTransfer.jsx:11-22 | the screen starts with ETH selected and named, the reset button hidden and no transaction shown |
| TokenTransfer.FetchTokenName | src/components/TokenTransfer/TokenTransfer.jsx:46-61 | without a provider nothing happens; otherwise the name shown is the token's name, or "Unknown Token" when the call throws |
| TokenTransfer.FetchTokenBalance | src/components/TokenTransfer/TokenTransfer.jsx:64-84 | for ETH, reads the account's native balance and formats it with 18 decimals, keeping the name; for a token, refreshes the name, then shows the balance formatted with its decimals; any failed read shows the error and keeps the old balance; only name, balance and error may change |
| TokenTransfer.AfterTokenChange | src/components/TokenTransfer/TokenTransfer.jsx:41-43 | when the selected token changed, the state is exactly what the balance lookup leaves; otherwise nothing happens; only the display fields change, and no transaction is submitted |
| TokenTransfer.SelectToken | src/components/TokenTransfer/TokenTransfer.jsx:150-153 | the chosen address becomes the token and the reset button shows; reselecting the current token makes no request; a newly chosen token runs the balance lookup, with exactly its state and requests: the name is refreshed, the balance is shown formatted with its decimals when both reads return, and a failed read shows "Invalid token address or token not found." |
| TokenTransfer.SelectPopular | src/components/TokenTransfer/TokenTransfer.jsx:174-185 | no logo is the native asset, and clicking the i-th logo selects the i-th catalogue address |
| TokenTransfer.ResetToEth | src/components/TokenTransfer/TokenTransfer.jsx:156-161 | afterwards the token and name are "ETH", the custom input is empty and the reset button hidden, even after the balance refresh; leaving a token for ETH shows the native balance formatted with 18 decimals when it can be read; with ETH already selected only the name, custom input and reset button are written and no request is made; apart from the four written fields only the balance and error display may change |
| TokenTransfer.AddCustomToken | src/components/TokenTransfer/TokenTransfer.jsx:196-205 | an address that fails `isAddress` sets the error and changes nothing else; a valid one becomes the token, the input is cleared and the reset button shows; with a provider the name shown is the token's name, or "Unknown Token" when that read throws, and without one the name is kept; apart from that only the balance and error display may change |
| TokenTransfer.SubmitAndWait | src/components/TokenTransfer/TokenTransfer.jsx:107-135 | exactly the given request is submitted; shown details carry the mined transaction's hash and the chosen recipient and value rendering |
| TokenTransfer.Send | src/components/TokenTransfer/TokenTransfer.jsx:99-136 | a submission happens only as the planned native send or token transfer; details exist iff it is submitted and mined; ERC-20 details show the typed recipient and amount string; native details show the transaction's recipient and its value formatted with 18 decimals |
| TokenTransfer.HandleTransfer | src/components/TokenTransfer/TokenTransfer.jsx:87-147 | loading is false on every exit; no provider sets the error, clears the details and sends nothing; with a provider, whenever the transaction can be planned it is submitted, and only it: a native send to the recipient for ETH, an ERC-20 transfer of the same token otherwise; at most one submission; details are shown iff the planned transaction is submitted and mined; success opens the dialog and clears recipient, amount and error; failure shows "Payment failed…", leaves the details empty and keeps the form |
| TokenTransfer.SubmitForm | src/components/TokenTransfer/TokenTransfer.jsx:218-244 | with an empty recipient or amount the browser blocks the submit and nothing happens; otherwise the transfer handler runs |
| TokenTransfer.NoResubmitAfterSuccess | src/components/TokenTransfer/TokenTransfer.jsx:137-140 | after a successful transfer the cleared form cannot be submitted again without new input |
| TokenTransfer.UnparsableEtherSendsNothing | src/components/TokenTransfer/TokenTransfer.jsx:103-106 | an ETH amount that does not parse submits nothing and reports the payment failure |
| TokenTransfer.Apply | src/components/TokenTransfer/TokenTransfer.jsx:32-277 | no action, including the provider appearing and re-running the balance lookup, leaves a transfer in progress; only a submit of the form can submit a transaction, and it submits at most one |
| TokenTransfer.RunKeepsIdle | src/components/TokenTransfer/TokenTransfer.jsx:87-147 | after any sequence of actions, with the ledger free to change between them, no transfer is in progress, and the ledger has seen at most one transaction per submit of the form |

## Findings

| source | as written | input that shows it | evidently intended | confidence | as-written member | corrected member |
|---|---|---|---|---|---|---|
| src/components/TokenAllowance/TokenAllowance.jsx:51-55 | The effect copying `selectedToken` into `tokenAddress` depends on `[selectedToken]`. Clicking the logo of the token already selected sets the same value, so React does not re-run the effect. | Click USDC, type `0xdead` into the token-address field, click USDC again: the field still reads `0xdead`. | Each logo click puts that token's address in the field. | medium, not executed | TokenAllowance.SelectTokenAsWritten, TokenAllowance.ReselectKeepsEditedAddress | TokenAllowance.SelectToken |

The allowance screen's event model (`TokenAllowance.Apply`) follows the code as written and uses `SelectTokenAsWritten`. `SelectToken` is the corrected selection, and `TokenAllowance.SelectPopularFillsAddress` proves the intended property about it.

## Left out

- Provider construction (`TokenAllowance.jsx:26-48`, `TokenTransfer.jsx:32-38`, `WatchList.jsx:24-30`) is left out. It is foreign-library initialisation; its result is the `connected` flag of `Chain`.
- ethers.js internals are left out: `isAddress`, `formatUnits`, `parseUnits` and contract-call encoding. They are oracle fields of `Library` and `Chain`, so no decimal round trip is claimed.
- TokenAllowance.ApproveTokens: the balance guard `parseFloat(balance) < parseFloat(amount)` is binary floating point. It is modelled as the abstract predicate `floatLess`, so the contract does not promise an exact decimal comparison.
- Async interleaving is left out. Each handler runs atomically, so a stale refresh cannot overwrite a newer list, and the `loading` flag is only seen after the handler returns. Coalescing of concurrent metadata reads and per-refresh epochs are not in the code and are not modelled.
- The ledger oracle is fixed within one handler, so two reads of the same token in one refresh get the same answer. Between user actions it may change: each event of a `Run` gets its own `Chain`, so the provider can appear after the first render and token reads can differ from one action to the next.
- WatchList.Init: the slot is modelled as absent or holding a list of strings. A slot holding text that is not a JSON array of strings is not modelled.
- The wagmi account address is the fixed `Chain.account`. An undefined account while disconnected is covered only through failing reads.
- Rendering is left out: JSX, CSS and `console`. Closing the confirmation dialog is the transfer screen's `CloseModal` event. Alerts are kept as the `alert` field of `Step`.
- The watch list's `error` state is never set by the code, so it is omitted.
- `localStorage.setItem` is assumed never to throw (`WatchList.jsx:59`, `79`, `91`). The `Persisted` invariant rests on this. Each write follows `setTokens`, so a failed write would leave the stored list behind the list in memory. At line 59 or 79 it would also skip `setLoading(false)` and leave `loading` set.
- WatchList.Apply: the table refresh runs in the code as an effect on `[tokens, provider]` (`WatchList.jsx:94-114`). In the model it is the separate `Refresh` event, so after an add or remove the table is stale until a `Refresh` event follows.
- `CheckAllowance.jsx` and `ApproveTokens.jsx` are not part of this model. Their field edits are the `Edit` event of the allowance screen.
- TokenTransfer.HandleTransfer: the receipt's `gasUsed` is kept as a number rather than its decimal string.
- TokenTransfer.Init: the initial balance is the number 0 in the code; the model writes it as the string "0".
- `src/main.jsx`, `src/App.jsx`, `LandingPage.jsx` and `Dashboard.jsx` are left out. They hold routing, session setup and display only.

=== FILE: ledger.dfy ===
/**
  The outside world as the three components see it.

  Every awaited call into the wallet provider or a token contract is an
  oracle: it either resolves with a value or throws.  The oracle is a
  `Chain` value whose fields are total functions, so one handler invocation
  sees one deterministic answer per question.  Each handler also reports the
  ledger requests it attempted, in order (`LedgerOp`), which is what lets the
  model say "no transaction was submitted" or "nothing reached the ledger".

  The library routines the components call but do not implement
  (`formatUnits`, `parseUnits`, `isAddress`, and the `parseFloat` comparison)
  are fields of a `Library` value.
 */
module Ledger {

  datatype Option<+T> = None | Some(value: T)

  /** Outcome of one awaited call: it resolved with a value, or it threw. */
  datatype Call<+T> = Returned(value: T) | Threw

  /** A state-changing transaction the user is asked to sign. Amounts are in
      the token's (or the native asset's) smallest unit. */
  datatype TxRequest =
    | NativeSend(to: string, wei: nat)
    | Erc20Transfer(token: string, to: string, amount: nat)
    | TokenApprove(token: string, spender: string, amount: nat)

  /** What a submission resolves with: the transaction response. */
  datatype SentTx = SentTx(hash: string, from: string, to: string, value: nat)

  /** What `wait()` resolves with once the transaction is mined. */
  datatype Mined = Mined(gasUsed: nat, effectiveGasPrice: nat, blockNumber: nat)

  /** One request sent towards the ledger. */
  datatype LedgerOp =
    | ReadSignerAddress
    | ReadName(token: string)
    | ReadDecimals(token: string)
    | ReadBalance(token: string, owner: string)
    | ReadNativeBalance(owner: string)
    | ReadAllowance(token: string, owner: string, spender: string)
    | Submit(request: TxRequest)
    | AwaitConfirmation(hash: string)

  /** The provider handle and the contracts behind it.  `connected` is false
      when the component's provider is still null; every accessor below then
      throws, as a call through a null provider does. */
  datatype Chain = Chain(
    connected: bool,
    account: string,
    signerAddress: Call<string>,
    name: string -> Call<string>,
    decimals: string -> Call<nat>,
    balanceOf: (string, string) -> Call<nat>,
    nativeBalance: string -> Call<nat>,
    allowance: (string, string, string) -> Call<nat>,
    submit: TxRequest -> Call<SentTx>,
    confirm: SentTx -> Call<Mined>)
  {
    function SignerAddress(): Call<string> {
      if connected then signerAddress else Threw
    }

    function Name(token: string): Call<string> {
      if connected then name(token) else Threw
    }

    function Decimals(token: string): Call<nat> {
      if connected then decimals(token) else Threw
    }

    function BalanceOf(token: string, owner: string): Call<nat> {
      if connected then balanceOf(token, owner) else Threw
    }

    function NativeBalance(owner: string): Call<nat> {
      if connected then nativeBalance(owner) else Threw
    }

    function Allowance(token: string, owner: string, spender: string): Call<nat> {
      if connected then allowance(token, owner, spender) else Threw
    }

    function Submit(request: TxRequest): Call<SentTx> {
      if connected then submit(request) else Threw
    }

    function Confirm(tx: SentTx): Call<Mined> {
      if connected then confirm(tx) else Threw
    }
  }

  /** Decimal places of the native asset, and of the gwei display unit. */
  const EtherDecimals: nat := 18
  const GweiDecimals: nat := 9

  /** Unit conversion, address syntax and the float comparison the
      components borrow.  `parseUnits` answers None where it would throw. */
  datatype Library = Library(
    formatUnits: (nat, nat) -> string,
    parseUnits: (string, nat) -> Option<nat>,
    isAddress: string -> bool,
    floatLess: (string, string) -> bool)
  {
    function FormatEther(wei: nat): string {
      formatUnits(wei, EtherDecimals)
    }

    function ParseEther(s: string): Option<nat> {
      parseUnits(s, EtherDecimals)
    }

    function FormatGwei(wei: nat): string {
      formatUnits(wei, GweiDecimals)
    }
  }

  /** The result of one handler: the component state after it, the ledger
      requests it made, and the browser alert it raised, if any. */
  datatype Step<S> = Step(state: S, ops: seq<LedgerOp>, alert: Option<string>)

  /** The transactions submitted in a trace, in order. */
  function Submitted(ops: seq<LedgerOp>): (r: seq<TxRequest>)
    ensures |r| <= |ops|
    ensures forall q :: q in r <==> Submit(q) in ops
  {
    if ops == [] then []
    else (if ops[0].Submit? then [ops[0].request] else []) + Submitted(ops[1..])
  }

  predicate NoSubmission(ops: seq<LedgerOp>) {
    forall i :: 0 <= i < |ops| ==> !ops[i].Submit?
  }

  lemma {:induction false} SubmittedConcat(a: seq<LedgerOp>, b: seq<LedgerOp>)
    ensures Submitted(a + b) == Submitted(a) + Submitted(b)
  {
    if a == [] {
      assert a + b == b;
    } else {
      assert (a + b)[1..] == a[1..] + b;
      SubmittedConcat(a[1..], b);
    }
  }

  lemma {:induction false} NoSubmissionIsEmpty(ops: seq<LedgerOp>)
    ensures NoSubmission(ops) <==> Submitted(ops) == []
  {
    if ops != [] {
      NoSubmissionIsEmpty(ops[1..]);
      assert NoSubmission(ops) <==> !ops[0].Submit? && NoSubmission(ops[1..]) by {
        assert forall i :: 0 < i < |ops| ==> ops[i] == ops[1..][i - 1];
      }
    }
  }
}

=== FILE: popular_tokens.dfy ===
/**
  The curated token catalogue the three components offer as one-click
  choices, and the "shown tokens" list both the allowance and the transfer
  screens derive from it by prepending a native-asset entry and filtering
  that entry out again.
 */
module PopularTokens {
  import opened Ledger

  /** A catalogue entry.  The native asset has no contract address and no
      logo; every catalogue entry has both. */
  datatype TokenRef = TokenRef(symbol: string, address: Option<string>, logo: Option<string>)

  const NativeSymbol := "ETH"

  /** The native-asset entry the allowance and transfer screens prepend. */
  const NativeEntry := TokenRef(NativeSymbol, None, None)

  predicate Listed(t: TokenRef) {
    t.address.Some? && t.address.value != "" && t.logo.Some? && t.symbol != ""
  }

  /** The six popular tokens, in display order. */
  function Catalogue(): (c: seq<TokenRef>)
    ensures |c| == 6
    ensures forall i :: 0 <= i < |c| ==> Listed(c[i]) && c[i].symbol != NativeSymbol
    ensures forall i, j :: 0 <= i < j < |c| ==> c[i].address != c[j].address
  {
    var c := [
      TokenRef("USDC", Some("0xA0b86991c6218b36c1d19D4a2e9Eb0cE3606eB48"), Some("/usdc.png")),
      TokenRef("Wrapped Ether", Some("0xC02aaA39b223FE8D0A0e5C4F27eAD9083C756Cc2"), Some("/wrapped-eth.png")),
      TokenRef("DAI", Some("0x6B175474E89094C44Da98b954EedeAC495271d0F"), Some("/dai.png")),
      TokenRef("Tether", Some("0xdAC17F958D2ee523a2206206994597C13D831ec7"), Some("/tether.png")),
      TokenRef("ChainLink", Some("0x514910771AF9Ca656af840dff83E8264EcF986CA"), Some("/chainlink.png")),
      TokenRef("Uniswap", Some("0x1f9840a85d5aF5bf1D1762F925BDADdC4201F984"), Some("/uniswap.png"))
    ];
    // The third character of every address is different.
    assert forall i, j :: 0 <= i < j < |c| ==> c[i].address.value[2] != c[j].address.value[2];
    c
  }

  /** The address of the i-th catalogue entry. */
  function CatalogueAddress(i: nat): (a: string)
    requires i < |Catalogue()|
    ensures a != "" && Some(a) == Catalogue()[i].address
  {
    Catalogue()[i].address.value
  }

  /** `tokens.filter((t) => t.symbol !== "ETH")`, in order. */
  function WithoutNative(ts: seq<TokenRef>): (r: seq<TokenRef>)
    ensures forall t :: t in r <==> t in ts && t.symbol != NativeSymbol
    ensures |r| <= |ts|
  {
    if ts == [] then []
    else (if ts[0].symbol == NativeSymbol then [] else [ts[0]]) + WithoutNative(ts[1..])
  }

  /** The logos shown on the allowance and transfer screens. */
  function Shown(): seq<TokenRef> {
    WithoutNative([NativeEntry] + Catalogue())
  }

  /** Filtering leaves a list without native entries as it is. */
  lemma {:induction false} WithoutNativeKeeps(ts: seq<TokenRef>)
    requires forall i :: 0 <= i < |ts| ==> ts[i].symbol != NativeSymbol
    ensures WithoutNative(ts) == ts
  {
    if ts != [] {
      WithoutNativeKeeps(ts[1..]);
    }
  }

  /** Prepending the native entry and filtering it out again gives back
      any list that has no native entry of its own. */
  lemma {:induction false} NativeEntryFilteredAway(ts: seq<TokenRef>)
    requires forall i :: 0 <= i < |ts| ==> ts[i].symbol != NativeSymbol
    ensures WithoutNative([NativeEntry] + ts) == ts
  {
    assert ([NativeEntry] + ts)[1..] == ts;
    WithoutNativeKeeps(ts);
  }

  /** The screens show exactly the catalogue, in catalogue order. */
  lemma ShownIsCatalogue()
    ensures Shown() == Catalogue()
  {
    NativeEntryFilteredAway(Catalogue());
  }
}

=== FILE: token_allowance.dfy ===
/**
  The allowance screen: a "check" mode that reads how much a spender
  contract may move from the user's account, and an "approve" mode that
  grants a new allowance after a balance pre-flight check.
 */
module TokenAllowance {
  import opened Ledger
  import PopularTokens

  const MissingAddressesMsg := "Please provide both token address and contract address."
  const CheckFailedMsg := "Error fetching allowance. Please check the addresses and try again."
  const MissingFieldsMsg := "Please provide token address, contract address, and approval amount."
  const InsufficientMsg := "Insufficient token balance for approval."
  const ApproveFailedMsg := "Error approving tokens. Connect to a wallet or try again later."
  const ApprovedMsg := "Approval successful!"

  const CheckMode := "check"
  const ApproveMode := "approve"

  datatype AllowanceState = AllowanceState(
    tokenAddress: string,
    contractAddress: string,
    allowance: Option<string>,
    approvalAmount: string,
    error: string,
    success: string,
    mode: string,
    isApproving: bool,
    selectedToken: string)

  function Init(): (s: AllowanceState)
    ensures ModeValid(s) && ShowsCheck(s) && !s.isApproving
  {
    AllowanceState("", "", None, "", "", "", CheckMode, false, "")
  }

  /** The two panels are guarded by `mode === "check"` and
      `mode === "approve"`. */
  predicate ShowsCheck(s: AllowanceState) { s.mode == CheckMode }
  predicate ShowsApprove(s: AllowanceState) { s.mode == ApproveMode }

  predicate ModeValid(s: AllowanceState) { s.mode == CheckMode || s.mode == ApproveMode }

  /** While the mode is one of its two values, exactly one panel shows. */
  lemma ExactlyOnePanel(s: AllowanceState)
    requires ModeValid(s)
    ensures ShowsCheck(s) != ShowsApprove(s)
  {
  }

  /** The two toggle buttons. */
  function SetMode(s: AllowanceState, toApprove: bool): (r: AllowanceState)
    ensures ModeValid(r) && ShowsApprove(r) == toApprove
    ensures r.(mode := s.mode) == s
  {
    s.(mode := if toApprove then ApproveMode else CheckMode)
  }

  /** Which account's allowance is read: the stored "walletAddress" when it
      is non-empty, otherwise the signer's address. */
  datatype Lookup = Lookup(owner: Call<string>, ops: seq<LedgerOp>)

  function Owner(chain: Chain, storedWallet: Option<string>): Lookup {
    if storedWallet.Some? && storedWallet.value != "" then Lookup(Returned(storedWallet.value), [])
    else Lookup(chain.SignerAddress(), [ReadSignerAddress])
  }

  predicate Filled(s: AllowanceState) {
    s.tokenAddress != "" && s.contractAddress != ""
  }

  /** The "check" action.  The allowance read is displayed with 18 decimals
      whatever the token's own decimals are. */
  function CheckAllowance(s: AllowanceState, chain: Chain, lib: Library, storedWallet: Option<string>): (r: Step<AllowanceState>)
    ensures !Filled(s) ==> r == Step(s.(error := MissingAddressesMsg), [], None)
    ensures Filled(s) ==> (r.state.error == "" <==> r.state.allowance.Some?)
    ensures Filled(s) && r.state.allowance.Some? ==>
              var owner := Owner(chain, storedWallet).owner;
              owner.Returned?
              && chain.Allowance(s.tokenAddress, owner.value, s.contractAddress).Returned?
              && r.state.allowance == Some(lib.FormatEther(chain.Allowance(s.tokenAddress, owner.value, s.contractAddress).value))
              && ReadAllowance(s.tokenAddress, owner.value, s.contractAddress) in r.ops
    ensures Filled(s) && r.state.allowance.None? ==> r.state.error == CheckFailedMsg
    ensures Filled(s) && Owner(chain, storedWallet).owner.Returned?
            && chain.Allowance(s.tokenAddress, Owner(chain, storedWallet).owner.value, s.contractAddress).Returned? ==>
              r.state.allowance.Some? && r.state.error == ""
    ensures !chain.connected && Filled(s) ==> r.state.allowance == None
    ensures r.state.(error := s.error, allowance := s.allowance) == s
    ensures NoSubmission(r.ops) && r.alert == None
  {
    if !Filled(s) then Step(s.(error := MissingAddressesMsg), [], None)
    else
      var lookup := Owner(chain, storedWallet);
      var failed := s.(error := CheckFailedMsg, allowance := None);
      match lookup.owner
      case Threw => Step(failed, lookup.ops, None)
      case Returned(owner) =>
        var ops := lookup.ops + [ReadAllowance(s.tokenAddress, owner, s.contractAddress)];
        match chain.Allowance(s.tokenAddress, owner, s.contractAddress)
        case Threw => Step(failed, ops, None)
        case Returned(raw) => Step(s.(allowance := Some(lib.FormatEther(raw)), error := ""), ops, None)
  }

  predicate Complete(s: AllowanceState) {
    s.tokenAddress != "" && s.contractAddress != "" && s.approvalAmount != ""
  }

  /** The pre-flight check failed: the signer, its balance and the token's
      decimals were all read, and the formatted balance compares below the
      requested amount. */
  predicate BalanceTooLow(s: AllowanceState, chain: Chain, lib: Library) {
    && chain.SignerAddress().Returned?
    && chain.BalanceOf(s.tokenAddress, chain.SignerAddress().value).Returned?
    && chain.Decimals(s.tokenAddress).Returned?
    && lib.floatLess(lib.formatUnits(chain.BalanceOf(s.tokenAddress, chain.SignerAddress().value).value,
                                     chain.Decimals(s.tokenAddress).value),
                     s.approvalAmount)
  }

  /** The approval the form asks for: the amount parsed with the token's
      decimals, when both can be had. */
  function PlannedApproval(s: AllowanceState, chain: Chain, lib: Library): Option<TxRequest> {
    match chain.Decimals(s.tokenAddress)
    case Threw => None
    case Returned(decimals) =>
      match lib.parseUnits(s.approvalAmount, decimals)
      case None => None
      case Some(units) => Some(TokenApprove(s.tokenAddress, s.contractAddress, units))
  }

  /** Every step of the approval succeeds: the signer, its balance and the
      token's decimals are read, the balance does not compare below the
      amount, the amount parses, and the approve is submitted and mined. */
  predicate ApprovalGoesThrough(s: AllowanceState, chain: Chain, lib: Library) {
    && Complete(s)
    && chain.SignerAddress().Returned?
    && chain.BalanceOf(s.tokenAddress, chain.SignerAddress().value).Returned?
    && !BalanceTooLow(s, chain, lib)
    && PlannedApproval(s, chain, lib).Some?
    && chain.Submit(PlannedApproval(s, chain, lib).value).Returned?
    && chain.Confirm(chain.Submit(PlannedApproval(s, chain, lib).value).value).Returned?
  }

  /** The catch block: error shown, success message cleared. */
  function ApproveFailed(s: AllowanceState, ops: seq<LedgerOp>): Step<AllowanceState> {
    Step(s.(error := ApproveFailedMsg, success := "", isApproving := false), ops, None)
  }

  /** The end of the approval once the request is planned: submit it,
      wait for it to be mined, and report success or the catch block's
      error. */
  function SubmitApproval(s: AllowanceState, chain: Chain, ops: seq<LedgerOp>, request: TxRequest): (r: Step<AllowanceState>)
    requires NoSubmission(ops)
    ensures Submitted(r.ops) == [request]
    ensures r.state.error == "" <==>
              chain.Submit(request).Returned? && chain.Confirm(chain.Submit(request).value).Returned?
    ensures r.state.error == "" ==> r.state.success == ApprovedMsg && r.state.allowance == None
    ensures r.state.error != "" ==>
              r.state.error == ApproveFailedMsg && r.state.success == "" && r.state.allowance == s.allowance
    ensures !r.state.isApproving && r.alert == None
    ensures r.state.(error := s.error, success := s.success, allowance := s.allowance, isApproving := s.isApproving) == s
  {
    var ops1 := ops + [Submit(request)];
    assert Submitted(ops1) == [request] by {
      SubmittedConcat(ops, [Submit(request)]);
      NoSubmissionIsEmpty(ops);
    }
    match chain.Submit(request)
    case Threw => ApproveFailed(s, ops1)
    case Returned(tx) =>
      var ops2 := ops1 + [AwaitConfirmation(tx.hash)];
      assert Submitted(ops2) == [request] by {
        SubmittedConcat(ops1, [AwaitConfirmation(tx.hash)]);
      }
      match chain.Confirm(tx)
      case Threw => ApproveFailed(s, ops2)
      case Returned(_) =>
        Step(s.(success := ApprovedMsg, error := "", allowance := None, isApproving := false), ops2, None)
  }

  /** The "approve" action. */
  function ApproveTokens(s: AllowanceState, chain: Chain, lib: Library): (r: Step<AllowanceState>)
    ensures !Complete(s) ==> r == Step(s.(error := MissingFieldsMsg), [], None)
    ensures Complete(s) ==> !r.state.isApproving
    ensures Complete(s) && BalanceTooLow(s, chain, lib) ==>
              NoSubmission(r.ops) && r.state.error == InsufficientMsg && r.state.success == s.success
    ensures NoSubmission(r.ops) || (Complete(s) && !BalanceTooLow(s, chain, lib)
              && PlannedApproval(s, chain, lib).Some?
              && Submitted(r.ops) == [PlannedApproval(s, chain, lib).value])
    ensures r.state.success == ApprovedMsg && s.success != ApprovedMsg ==>
              Complete(s) && r.state.error == "" && r.state.allowance == None && |Submitted(r.ops)| == 1
    ensures Complete(s) && r.state.error != "" && r.state.error != InsufficientMsg ==>
              r.state.error == ApproveFailedMsg && r.state.success == ""
    ensures Complete(s) ==> r.state.error in {"", InsufficientMsg, ApproveFailedMsg}
    ensures Complete(s) && r.state.error == "" ==> r.state.success == ApprovedMsg && r.state.allowance == None
    ensures Complete(s) ==> (r.state.error == "" <==> ApprovalGoesThrough(s, chain, lib))
    ensures Complete(s) ==> (r.state.error == InsufficientMsg <==> BalanceTooLow(s, chain, lib))
    ensures Complete(s) && chain.SignerAddress().Returned?
            && chain.BalanceOf(s.tokenAddress, chain.SignerAddress().value).Returned?
            && !BalanceTooLow(s, chain, lib) && PlannedApproval(s, chain, lib).Some? ==>
              Submitted(r.ops) == [PlannedApproval(s, chain, lib).value]
    ensures r.state.error != "" ==> r.state.allowance == s.allowance
    ensures r.state.(error := s.error, success := s.success, allowance := s.allowance, isApproving := s.isApproving) == s
    ensures r.alert == None
  {
    if !Complete(s) then Step(s.(error := MissingFieldsMsg), [], None)
    else
      var token := s.tokenAddress;
      match chain.SignerAddress()
      case Threw => ApproveFailed(s, [ReadSignerAddress])
      case Returned(owner) =>
        var ops2 := [ReadSignerAddress, ReadBalance(token, owner)];
        match chain.BalanceOf(token, owner)
        case Threw => ApproveFailed(s, ops2)
        case Returned(balance) =>
          var ops3 := ops2 + [ReadDecimals(token)];
          match chain.Decimals(token)
          case Threw => ApproveFailed(s, ops3)
          case Returned(decimals) =>
            if lib.floatLess(lib.formatUnits(balance, decimals), s.approvalAmount) then
              Step(s.(error := InsufficientMsg, isApproving := false), ops3, None)
            else
              match lib.parseUnits(s.approvalAmount, decimals)
              case None => ApproveFailed(s, ops3)
              case Some(units) =>
                SubmitApproval(s, chain, ops3, TokenApprove(token, s.contractAddress, units))
  }

  /** The effect on `selectedToken` as written: React re-runs it only when
      the selection changes, so a repeated click on the same logo leaves the
      token-address field as the user last edited it. */
  function SelectTokenAsWritten(s: AllowanceState, address: string): (r: AllowanceState)
    ensures r.selectedToken == address
    ensures address != s.selectedToken && address != "" ==> r.tokenAddress == address
    ensures address == s.selectedToken ==> r.tokenAddress == s.tokenAddress
    ensures r.(tokenAddress := s.tokenAddress, selectedToken := s.selectedToken) == s
  {
    var s1 := s.(selectedToken := address);
    if address != s.selectedToken && address != "" then s1.(tokenAddress := address) else s1
  }

  /** Clicking USDC, overwriting the address field, then clicking USDC
      again leaves the overwritten text in the field. */
  lemma ReselectKeepsEditedAddress()
    ensures
      var usdc := PopularTokens.CatalogueAddress(0);
      var picked := SelectTokenAsWritten(Init(), usdc);
      var edited := picked.(tokenAddress := "0xdead");
      SelectTokenAsWritten(edited, usdc).tokenAddress == "0xdead" != usdc
  {
  }

  /** A logo click with the field refilled every time. */
  function SelectToken(s: AllowanceState, address: string): (r: AllowanceState)
    ensures r.selectedToken == address
    ensures address != "" ==> r.tokenAddress == address
    ensures address == "" ==> r.tokenAddress == s.tokenAddress
    ensures r.(tokenAddress := s.tokenAddress, selectedToken := s.selectedToken) == s
  {
    var s1 := s.(selectedToken := address);
    if address != "" then s1.(tokenAddress := address) else s1
  }

  /** Every logo on the screen is a catalogue token.  Clicking the i-th
      one puts that token's address in the field unless that token is
      already the selection, in which case the field keeps whatever it
      holds; the corrected selection fills it whatever came before. */
  lemma SelectPopularFillsAddress(s: AllowanceState, i: nat)
    requires i < |PopularTokens.Catalogue()|
    ensures |PopularTokens.Shown()| == |PopularTokens.Catalogue()| && PopularTokens.Shown()[i] == PopularTokens.Catalogue()[i]
    ensures PopularTokens.CatalogueAddress(i) != s.selectedToken ==>
              SelectTokenAsWritten(s, PopularTokens.CatalogueAddress(i)).tokenAddress == PopularTokens.Shown()[i].address.value
    ensures PopularTokens.CatalogueAddress(i) == s.selectedToken ==>
              SelectTokenAsWritten(s, PopularTokens.CatalogueAddress(i)).tokenAddress == s.tokenAddress
    ensures SelectToken(s, PopularTokens.CatalogueAddress(i)).tokenAddress == PopularTokens.Shown()[i].address.value
  {
    PopularTokens.ShownIsCatalogue();
  }

  /** What the user can do on the allowance screen.  Typing into the form
      fields is the `Edit` event. */
  datatype Event =
    | ToggleMode(toApprove: bool)
    | ClickLogo(index: nat)
    | Edit(tokenAddress: string, contractAddress: string, approvalAmount: string)
    | ClickCheck(storedWallet: Option<string>)
    | ClickApprove

  function Apply(s: AllowanceState, e: Event, chain: Chain, lib: Library): Step<AllowanceState> {
    match e
    case ToggleMode(b) => Step(SetMode(s, b), [], None)
    case ClickLogo(i) =>
      if i < |PopularTokens.Catalogue()| then Step(SelectTokenAsWritten(s, PopularTokens.CatalogueAddress(i)), [], None)
      else Step(s, [], None)
    case Edit(t, c, a) => Step(s.(tokenAddress := t, contractAddress := c, approvalAmount := a), [], None)
    case ClickCheck(w) => CheckAllowance(s, chain, lib, w)
    case ClickApprove => ApproveTokens(s, chain, lib)
  }

  /** The state after a sequence of events, the i-th meeting the ledger
      as `chains[i]`. */
  function Run(s: AllowanceState, events: seq<Event>, chains: seq<Chain>, lib: Library): AllowanceState
    requires |chains| == |events|
    decreases |events|
  {
    if events == [] then s
    else Run(Apply(s, events[0], chains[0], lib).state, events[1..], chains[1..], lib)
  }

  /** From the first render on, the mode is "check" or "approve" and no
      approval is left in progress between actions. */
  lemma {:induction false} RunKeepsMode(s: AllowanceState, events: seq<Event>, chains: seq<Chain>, lib: Library)
    requires ModeValid(s) && !s.isApproving && |chains| == |events|
    ensures ModeValid(Run(s, events, chains, lib)) && !Run(s, events, chains, lib).isApproving
    ensures ShowsCheck(Run(s, events, chains, lib)) != ShowsApprove(Run(s, events, chains, lib))
    decreases |events|
  {
    if events != [] {
      RunKeepsMode(Apply(s, events[0], chains[0], lib).state, events[1..], chains[1..], lib);
    }
  }
}

=== FILE: token_transfer.dfy ===
/**
  The transfer screen: pick the native asset, a catalogue token or a custom
  token address, then send an amount to a recipient and show the mined
  transaction's details.

  React re-runs the balance effect whenever the selected token changes;
  the handlers that change the token run that effect before returning.
 */
module TokenTransfer {
  import opened Ledger
  import PopularTokens

  const NativeToken := "ETH"
  const UnknownTokenName := "Unknown Token"
  const NoWalletMsg := "No wallet connected. Please connect a wallet first."
  const PaymentFailedMsg := "Payment failed. Please try again."
  const TokenNotFoundMsg := "Invalid token address or token not found."
  const InvalidAddressMsg := "Invalid token address."

  /** What the confirmation dialog shows. */
  datatype TxDetails = TxDetails(
    hash: string,
    from: string,
    to: string,
    value: string,
    gasUsed: nat,
    gasPrice: string,
    blockNumber: nat)

  datatype TransferState = TransferState(
    recipientAddress: string,
    amount: string,
    loading: bool,
    transactionDetails: Option<TxDetails>,
    modalIsOpen: bool,
    error: string,
    token: string,
    tokenName: string,
    customToken: string,
    tokenBalance: string,
    resetButtonVisible: bool)

  /** The screen as first rendered: the native asset is selected.  The
      balance starts as the number 0, rendered "0". */
  function Init(): (s: TransferState)
    ensures s.token == NativeToken && s.tokenName == NativeToken && !s.resetButtonVisible
    ensures s.transactionDetails == None && !s.modalIsOpen && !s.loading
  {
    TransferState("", "", false, None, false, "", NativeToken, NativeToken, "", "0", false)
  }

  /** The fields the name and balance lookups may write. */
  predicate OnlyDisplayChanged(s: TransferState, r: TransferState) {
    r.(tokenName := s.tokenName, tokenBalance := s.tokenBalance, error := s.error) == s
  }

  /** `fetchTokenName`: the token's name, or "Unknown Token" when the call
      throws; nothing without a provider. */
  function FetchTokenName(s: TransferState, chain: Chain, token: string): (r: Step<TransferState>)
    ensures !chain.connected ==> r == Step(s, [], None)
    ensures chain.connected ==> r.ops == [ReadName(token)]
    ensures chain.connected && chain.name(token).Returned? ==> r.state.tokenName == chain.name(token).value
    ensures chain.connected && chain.name(token).Threw? ==> r.state.tokenName == UnknownTokenName
    ensures r.state.(tokenName := s.tokenName) == s
  {
    if !chain.connected then Step(s, [], None)
    else
      match chain.Name(token)
      case Returned(name) => Step(s.(tokenName := name), [ReadName(token)], None)
      case Threw => Step(s.(tokenName := UnknownTokenName), [ReadName(token)], None)
  }

  /** `fetchTokenBalance`: the native balance formatted with 18 decimals,
      or the name, balance and decimals of the selected token; a failed read
      shows an error and keeps the previous balance. */
  function FetchTokenBalance(s: TransferState, chain: Chain, lib: Library): (r: Step<TransferState>)
    ensures !chain.connected ==> r == Step(s, [], None)
    ensures OnlyDisplayChanged(s, r.state)
    ensures s.token == NativeToken ==> r.state.tokenName == s.tokenName
    ensures chain.connected && s.token == NativeToken ==>
              r.ops == [ReadNativeBalance(chain.account)]
              && (chain.nativeBalance(chain.account).Returned? ==>
                    r.state.tokenBalance == lib.FormatEther(chain.nativeBalance(chain.account).value)
                    && r.state.error == s.error)
              && (chain.nativeBalance(chain.account).Threw? ==>
                    r.state.tokenBalance == s.tokenBalance && r.state.error == TokenNotFoundMsg)
    ensures chain.connected && s.token != NativeToken ==>
              (chain.balanceOf(s.token, chain.account).Returned? && chain.decimals(s.token).Returned? ==>
                 r.state.tokenBalance == lib.formatUnits(chain.balanceOf(s.token, chain.account).value,
                                                         chain.decimals(s.token).value)
                 && r.state.error == s.error)
              && (chain.balanceOf(s.token, chain.account).Threw? || chain.decimals(s.token).Threw? ==>
                    r.state.error == TokenNotFoundMsg && r.state.tokenBalance == s.tokenBalance)
              && r.state.tokenName == FetchTokenName(s, chain, s.token).state.tokenName
    ensures NoSubmission(r.ops) && r.alert == None
  {
    if !chain.connected then Step(s, [], None)
    else if s.token == NativeToken then
      var ops := [ReadNativeBalance(chain.account)];
      match chain.NativeBalance(chain.account)
      case Returned(wei) => Step(s.(tokenBalance := lib.FormatEther(wei)), ops, None)
      case Threw => Step(s.(error := TokenNotFoundMsg), ops, None)
    else
      var named := FetchTokenName(s, chain, s.token);
      var s1 := named.state;
      var ops := named.ops + [ReadBalance(s.token, chain.account)];
      match chain.BalanceOf(s.token, chain.account)
      case Threw => Step(s1.(error := TokenNotFoundMsg), ops, None)
      case Returned(balance) =>
        var ops' := ops + [ReadDecimals(s.token)];
        match chain.Decimals(s.token)
        case Threw => Step(s1.(error := TokenNotFoundMsg), ops', None)
        case Returned(decimals) => Step(s1.(tokenBalance := lib.formatUnits(balance, decimals)), ops', None)
  }

  /** Runs the balance effect when `after` selects a different token than
      `before` did. */
  function AfterTokenChange(before: TransferState, after: Step<TransferState>, chain: Chain, lib: Library): (r: Step<TransferState>)
    ensures after.state.token == before.token ==> r == after
    ensures after.state.token != before.token ==> r.state == FetchTokenBalance(after.state, chain, lib).state
    ensures OnlyDisplayChanged(after.state, r.state)
    ensures after.state.token == NativeToken ==> r.state.tokenName == after.state.tokenName
    ensures NoSubmission(after.ops) ==> NoSubmission(r.ops)
  {
    if after.state.token == before.token then after
    else
      var f := FetchTokenBalance(after.state, chain, lib);
      assert NoSubmission(after.ops) ==> NoSubmission(after.ops + f.ops);
      Step(f.state, after.ops + f.ops, after.alert)
  }

  /** A click on a token logo. */
  function SelectToken(s: TransferState, address: string, chain: Chain, lib: Library): (r: Step<TransferState>)
    ensures r.state.token == address && r.state.resetButtonVisible
    ensures r.state.(token := s.token, resetButtonVisible := s.resetButtonVisible,
                     tokenName := s.tokenName, tokenBalance := s.tokenBalance, error := s.error) == s
    ensures address == s.token ==> r.ops == [] && r.state.tokenName == s.tokenName
    ensures address != s.token ==>
              r.state == FetchTokenBalance(s.(token := address, resetButtonVisible := true), chain, lib).state
              && r.ops == FetchTokenBalance(s.(token := address, resetButtonVisible := true), chain, lib).ops
    ensures address != s.token && address != NativeToken && chain.connected
            && chain.balanceOf(address, chain.account).Returned? && chain.decimals(address).Returned? ==>
              r.state.tokenBalance == lib.formatUnits(chain.balanceOf(address, chain.account).value,
                                                      chain.decimals(address).value)
    ensures NoSubmission(r.ops)
  {
    AfterTokenChange(s, Step(s.(token := address, resetButtonVisible := true), [], None), chain, lib)
  }

  /** Clicking the i-th logo selects that catalogue token's address; the
      native asset is never among the logos. */
  lemma SelectPopular(s: TransferState, i: nat, chain: Chain, lib: Library)
    requires i < |PopularTokens.Catalogue()|
    ensures |PopularTokens.Shown()| == |PopularTokens.Catalogue()| && PopularTokens.Shown()[i] == PopularTokens.Catalogue()[i]
    ensures PopularTokens.Shown()[i].symbol != PopularTokens.NativeSymbol
    ensures SelectToken(s, PopularTokens.CatalogueAddress(i), chain, lib).state.token
            == PopularTokens.Shown()[i].address.value
  {
    PopularTokens.ShownIsCatalogue();
  }

  /** The "Transfer Eth" button: back to the native asset. */
  function ResetToEth(s: TransferState, chain: Chain, lib: Library): (r: Step<TransferState>)
    ensures r.state.token == NativeToken && r.state.tokenName == NativeToken
    ensures r.state.customToken == "" && !r.state.resetButtonVisible
    ensures r.state.recipientAddress == s.recipientAddress && r.state.amount == s.amount
    ensures r.state.transactionDetails == s.transactionDetails && r.state.modalIsOpen == s.modalIsOpen
    ensures s.token == NativeToken ==> r.ops == []
    ensures s.token == NativeToken ==>
              r == Step(s.(tokenName := NativeToken, customToken := "", resetButtonVisible := false), [], None)
    ensures OnlyDisplayChanged(s.(token := NativeToken, tokenName := NativeToken, customToken := "",
                                  resetButtonVisible := false), r.state)
    ensures s.token != NativeToken && chain.connected && chain.nativeBalance(chain.account).Returned? ==>
              r.state.tokenBalance == lib.FormatEther(chain.nativeBalance(chain.account).value)
    ensures NoSubmission(r.ops)
  {
    var s1 := s.(token := NativeToken, tokenName := NativeToken, customToken := "", resetButtonVisible := false);
    AfterTokenChange(s, Step(s1, [], None), chain, lib)
  }

  /** The "Add Custom Token" button: the typed address is adopted only
      when it is a syntactically valid address. */
  function AddCustomToken(s: TransferState, chain: Chain, lib: Library): (r: Step<TransferState>)
    ensures !lib.isAddress(s.customToken) ==> r == Step(s.(error := InvalidAddressMsg), [], None)
    ensures lib.isAddress(s.customToken) ==>
              r.state.token == s.customToken && r.state.customToken == "" && r.state.resetButtonVisible
    ensures lib.isAddress(s.customToken) ==>
              OnlyDisplayChanged(s.(token := s.customToken, customToken := "", resetButtonVisible := true), r.state)
    ensures lib.isAddress(s.customToken) && !chain.connected ==> r.state.tokenName == s.tokenName
    ensures lib.isAddress(s.customToken) && chain.connected ==>
              r.state.tokenName == (if chain.name(s.customToken).Returned? then chain.name(s.customToken).value
                                    else UnknownTokenName)
    ensures lib.isAddress(s.customToken) && chain.connected ==> ReadName(s.customToken) in r.ops
    ensures r.state.recipientAddress == s.recipientAddress && r.state.amount == s.amount
    ensures NoSubmission(r.ops)
  {
    if lib.isAddress(s.customToken) then
      var named := FetchTokenName(s.(token := s.customToken), chain, s.customToken);
      var s1 := named.state.(customToken := "", resetButtonVisible := true);
      AfterTokenChange(s, Step(s1, named.ops, None), chain, lib)
    else
      Step(s.(error := InvalidAddressMsg), [], None)
  }

  /** The transaction the form asks for, in smallest units: a native send
      of the amount parsed with 18 decimals, or a token transfer of the
      amount parsed with the token's decimals. */
  function PlannedTransfer(s: TransferState, chain: Chain, lib: Library): Option<TxRequest> {
    if s.token == NativeToken then
      match lib.ParseEther(s.amount)
      case None => None
      case Some(wei) => Some(NativeSend(s.recipientAddress, wei))
    else
      match chain.Decimals(s.token)
      case Threw => None
      case Returned(decimals) =>
        match lib.parseUnits(s.amount, decimals)
        case None => None
        case Some(units) => Some(Erc20Transfer(s.token, s.recipientAddress, units))
  }

  /** The planned transaction is submitted and mined. */
  predicate TransferGoesThrough(s: TransferState, chain: Chain, lib: Library) {
    && PlannedTransfer(s, chain, lib).Some?
    && chain.Submit(PlannedTransfer(s, chain, lib).value).Returned?
    && chain.Confirm(chain.Submit(PlannedTransfer(s, chain, lib).value).value).Returned?
  }

  /** The body of the try block: the details to show, or None where it
      throws, and the requests made. */
  datatype Attempt = Attempt(details: Option<TxDetails>, ops: seq<LedgerOp>)

  /** Submits `request`, waits for it and builds the details from what the
      ledger answered; `to` and `value` are what the dialog will show. */
  function SubmitAndWait(chain: Chain, lib: Library, prefix: seq<LedgerOp>, request: TxRequest,
                         to: SentTx -> string, value: SentTx -> string): (a: Attempt)
    requires NoSubmission(prefix)
    ensures Submitted(a.ops) == [request]
    ensures a.details.Some? ==>
              (chain.Submit(request).Returned?
               && a.details.value.to == to(chain.Submit(request).value)
               && a.details.value.value == value(chain.Submit(request).value)
               && a.details.value.hash == chain.Submit(request).value.hash)
  {
    var ops := prefix + [Submit(request)];
    assert Submitted(ops) == [request] by {
      SubmittedConcat(prefix, [Submit(request)]);
      NoSubmissionIsEmpty(prefix);
    }
    match chain.Submit(request)
    case Threw => Attempt(None, ops)
    case Returned(tx) =>
      var ops' := ops + [AwaitConfirmation(tx.hash)];
      assert Submitted(ops') == [request] by {
        SubmittedConcat(ops, [AwaitConfirmation(tx.hash)]);
      }
      match chain.Confirm(tx)
      case Threw => Attempt(None, ops')
      case Returned(mined) =>
        Attempt(Some(TxDetails(tx.hash, tx.from, to(tx), value(tx), mined.gasUsed,
                               lib.FormatGwei(mined.effectiveGasPrice), mined.blockNumber)), ops')
  }

  function Send(s: TransferState, chain: Chain, lib: Library): (a: Attempt)
    ensures Submitted(a.ops) == [] || (PlannedTransfer(s, chain, lib).Some? && Submitted(a.ops) == [PlannedTransfer(s, chain, lib).value])
    ensures a.details.Some? <==> TransferGoesThrough(s, chain, lib)
    ensures a.details.Some? && s.token != NativeToken ==>
              a.details.value.to == s.recipientAddress && a.details.value.value == s.amount
    ensures a.details.Some? && s.token == NativeToken ==>
              PlannedTransfer(s, chain, lib).Some?
              && chain.Submit(PlannedTransfer(s, chain, lib).value).Returned?
              && var tx := chain.Submit(PlannedTransfer(s, chain, lib).value).value;
                 a.details.value.to == tx.to && a.details.value.value == lib.FormatEther(tx.value)
  {
    if s.token == NativeToken then
      match lib.ParseEther(s.amount)
      case None => Attempt(None, [])
      case Some(wei) =>
        SubmitAndWait(chain, lib, [], NativeSend(s.recipientAddress, wei),
                      (tx: SentTx) => tx.to, (tx: SentTx) => lib.FormatEther(tx.value))
    else
      var ops := [ReadDecimals(s.token)];
      match chain.Decimals(s.token)
      case Threw => Attempt(None, ops)
      case Returned(decimals) =>
        match lib.parseUnits(s.amount, decimals)
        case None => Attempt(None, ops)
        case Some(units) =>
          SubmitAndWait(chain, lib, ops, Erc20Transfer(s.token, s.recipientAddress, units),
                        (tx: SentTx) => s.recipientAddress, (tx: SentTx) => s.amount)
  }

  /** `handleTransfer`. */
  function HandleTransfer(s: TransferState, chain: Chain, lib: Library): (r: Step<TransferState>)
    ensures !r.state.loading
    ensures !chain.connected ==>
              r.ops == [] && r.state == s.(transactionDetails := None, error := NoWalletMsg, loading := false)
    ensures |Submitted(r.ops)| <= 1
    ensures chain.connected && PlannedTransfer(s, chain, lib).Some? ==>
              Submitted(r.ops) == [PlannedTransfer(s, chain, lib).value]
    ensures chain.connected ==> (r.state.transactionDetails.Some? <==> TransferGoesThrough(s, chain, lib))
    ensures forall q :: q in Submitted(r.ops) ==> PlannedTransfer(s, chain, lib) == Some(q)
    ensures s.token == NativeToken ==> forall q :: q in Submitted(r.ops) ==> q.NativeSend? && q.to == s.recipientAddress
    ensures s.token != NativeToken ==>
              forall q :: q in Submitted(r.ops) ==> q.Erc20Transfer? && q.token == s.token && q.to == s.recipientAddress
    ensures r.state.transactionDetails.Some? ==>
              r.state.modalIsOpen && r.state.recipientAddress == "" && r.state.amount == ""
              && r.state.error == "" && |Submitted(r.ops)| == 1
    ensures r.state.transactionDetails.Some? && s.token != NativeToken ==>
              r.state.transactionDetails.value.to == s.recipientAddress
              && r.state.transactionDetails.value.value == s.amount
    ensures chain.connected && r.state.transactionDetails.None? ==>
              r.state.error == PaymentFailedMsg && r.state.modalIsOpen == s.modalIsOpen
              && r.state.recipientAddress == s.recipientAddress && r.state.amount == s.amount
    ensures r.state.(recipientAddress := s.recipientAddress, amount := s.amount, loading := s.loading,
                     transactionDetails := s.transactionDetails, modalIsOpen := s.modalIsOpen, error := s.error) == s
    ensures r.alert == None
  {
    var started := s.(loading := true, transactionDetails := None);
    if !chain.connected then
      Step(started.(error := NoWalletMsg, loading := false), [], None)
    else
      var attempt := Send(s, chain, lib);
      match attempt.details
      case Some(d) =>
        Step(started.(transactionDetails := Some(d), modalIsOpen := true, recipientAddress := "",
                      amount := "", error := "", loading := false), attempt.ops, None)
      case None =>
        Step(started.(error := PaymentFailedMsg, loading := false), attempt.ops, None)
  }

  /** The form's submit: both inputs are `required`, so the browser does
      not call the handler while either is empty. */
  function SubmitForm(s: TransferState, chain: Chain, lib: Library): (r: Step<TransferState>)
    ensures s.recipientAddress == "" || s.amount == "" ==> r == Step(s, [], None)
    ensures s.recipientAddress != "" && s.amount != "" ==> r == HandleTransfer(s, chain, lib)
    ensures !s.loading ==> !r.state.loading
  {
    if s.recipientAddress == "" || s.amount == "" then Step(s, [], None)
    else HandleTransfer(s, chain, lib)
  }

  /** A successful transfer clears the form, so an immediate second
      submit is stopped by the browser and sends nothing. */
  lemma NoResubmitAfterSuccess(s: TransferState, chain: Chain, lib: Library)
    requires HandleTransfer(s, chain, lib).state.transactionDetails.Some?
    ensures SubmitForm(HandleTransfer(s, chain, lib).state, chain, lib).ops == []
  {
  }

  /** Sending native currency with an amount that does not parse submits
      nothing and reports the failure. */
  lemma UnparsableEtherSendsNothing(s: TransferState, chain: Chain, lib: Library)
    requires chain.connected && s.token == NativeToken && lib.ParseEther(s.amount).None?
    ensures HandleTransfer(s, chain, lib).ops == []
    ensures HandleTransfer(s, chain, lib).state.error == PaymentFailedMsg
  {
  }

  /** What happens on the transfer screen.  Typing into the recipient and
      amount inputs is the `Type` event; `ProviderReady` is the provider
      being set after the first render, which re-runs the balance effect
      on `[token, provider]`. */
  datatype Event =
    | Type(recipientAddress: string, amount: string)
    | TypeCustom(customToken: string)
    | ClickLogo(index: nat)
    | ClickAddCustom
    | ClickReset
    | SubmitTransfer
    | CloseModal
    | ProviderReady

  function Apply(s: TransferState, e: Event, chain: Chain, lib: Library): (r: Step<TransferState>)
    ensures !s.loading ==> !r.state.loading
    ensures !e.SubmitTransfer? ==> NoSubmission(r.ops)
    ensures |Submitted(r.ops)| <= 1
  {
    match e
    case Type(to, amount) => Step(s.(recipientAddress := to, amount := amount), [], None)
    case TypeCustom(t) => Step(s.(customToken := t), [], None)
    case ClickLogo(i) =>
      if i < |PopularTokens.Catalogue()| then SelectToken(s, PopularTokens.CatalogueAddress(i), chain, lib)
      else Step(s, [], None)
    case ClickAddCustom =>
      var added := AddCustomToken(s, chain, lib);
      NoSubmissionIsEmpty(added.ops);
      added
    case ClickReset => ResetToEth(s, chain, lib)
    case SubmitTransfer => SubmitForm(s, chain, lib)
    case CloseModal => Step(s.(modalIsOpen := false), [], None)
    case ProviderReady => FetchTokenBalance(s, chain, lib)
  }

  /** The state after a sequence of events, and every ledger request they
      made, in order; the i-th event meets the ledger as `chains[i]`. */
  function Run(s: TransferState, events: seq<Event>, chains: seq<Chain>, lib: Library): Step<TransferState>
    requires |chains| == |events|
    decreases |events|
  {
    if events == [] then Step(s, [], None)
    else
      var first := Apply(s, events[0], chains[0], lib);
      var rest := Run(first.state, events[1..], chains[1..], lib);
      Step(rest.state, first.ops + rest.ops, rest.alert)
  }

  /** How many times the form was submitted. */
  function SubmitCount(events: seq<Event>): nat {
    if events == [] then 0
    else (if events[0].SubmitTransfer? then 1 else 0) + SubmitCount(events[1..])
  }

  /** Between actions no transfer is left in progress, and the ledger sees
      at most one transaction per submit of the form. */
  lemma {:induction false} RunKeepsIdle(s: TransferState, events: seq<Event>, chains: seq<Chain>, lib: Library)
    requires !s.loading && |chains| == |events|
    ensures !Run(s, events, chains, lib).state.loading
    ensures |Submitted(Run(s, events, chains, lib).ops)| <= SubmitCount(events)
    decreases |events|
  {
    if events != [] {
      var first := Apply(s, events[0], chains[0], lib);
      RunKeepsIdle(first.state, events[1..], chains[1..], lib);
      SubmittedConcat(first.ops, Run(first.state, events[1..], chains[1..], lib).ops);
      if !events[0].SubmitTransfer? {
        NoSubmissionIsEmpty(first.ops);
      }
    }
  }
}

=== FILE: watch_list.dfy ===
/**
  The watch list: an ordered list of token-address strings, written through
  to the browser's key-value storage under the single slot "tokens", plus the
  name/balance table a refresh computes for it.

  Storage is modelled as that one slot: absent (None) or holding a list.
  The JSON encoding of the list is taken to be faithful, so the slot holds
  the list itself.
 */
module WatchList {
  import opened Ledger
  import PopularTokens

  /** What a successful validation read from the token contract. */
  datatype TokenData = TokenData(name: string, balance: string)

  /** The placeholder a refresh records for a token it could not read. */
  const ErrorData := TokenData("Error", "Error")

  const AddFailedAlert := "Failed to add token. Please check the address or network and try again."
  const PopularFailedAlert := "Failed to add popular token. Please try again changing network"

  datatype WatchState = WatchState(
    tokens: seq<string>,
    stored: Option<seq<string>>,
    newToken: string,
    tokenData: map<string, TokenData>,
    loading: bool)

  /** The list a storage slot restores to: the stored list, or empty. */
  function Restored(slot: Option<seq<string>>): seq<string> {
    match slot
    case None => []
    case Some(l) => l
  }

  predicate NoDuplicates(ts: seq<string>) {
    forall i, j :: 0 <= i < j < |ts| ==> ts[i] != ts[j]
  }

  /** The in-memory list is the one storage would restore. */
  predicate Persisted(s: WatchState) {
    Restored(s.stored) == s.tokens
  }

  /** The invariant every handler keeps. */
  predicate Valid(s: WatchState) {
    Persisted(s) && NoDuplicates(s.tokens)
  }

  /** The component as first rendered, given what the slot holds. */
  function Init(slot: Option<seq<string>>): (s: WatchState)
    ensures Persisted(s) && s.stored == slot
    ensures slot.Some? ==> s.tokens == slot.value
    ensures slot.None? ==> s.tokens == []
    ensures NoDuplicates(Restored(slot)) ==> Valid(s)
    ensures s.tokenData == map[] && s.newToken == "" && !s.loading
  {
    WatchState(Restored(slot), slot, "", map[], false)
  }

  /** The outcome of one validation: the data read, or None where the
      source returns null, and the requests made. */
  datatype Probe = Probe(data: Option<TokenData>, ops: seq<LedgerOp>)

  /** Reads name, decimals and the account's balance of `token`; null when
      there is no provider or any of the three calls throws. */
  function ValidateToken(chain: Chain, lib: Library, token: string): (p: Probe)
    ensures p.data.Some? <==>
              chain.connected && chain.name(token).Returned? && chain.decimals(token).Returned?
              && chain.balanceOf(token, chain.account).Returned?
    ensures p.data.Some? ==>
              p.data.value == TokenData(chain.name(token).value,
                                        lib.formatUnits(chain.balanceOf(token, chain.account).value,
                                                        chain.decimals(token).value))
    ensures !chain.connected ==> p.ops == []
    ensures NoSubmission(p.ops) && |p.ops| <= 3
  {
    if !chain.connected then Probe(None, [])
    else
      match chain.Name(token)
      case Threw => Probe(None, [ReadName(token)])
      case Returned(name) =>
        match chain.Decimals(token)
        case Threw => Probe(None, [ReadName(token), ReadDecimals(token)])
        case Returned(decimals) =>
          var ops := [ReadName(token), ReadDecimals(token), ReadBalance(token, chain.account)];
          match chain.BalanceOf(token, chain.account)
          case Threw => Probe(None, ops)
          case Returned(balance) => Probe(Some(TokenData(name, lib.formatUnits(balance, decimals))), ops)
  }

  /** Appends `a` to the list and writes the result through to storage. */
  function Append(s: WatchState, a: string): (r: WatchState)
    requires a !in s.tokens
    ensures r.tokens == s.tokens + [a] && r.stored == Some(r.tokens)
    ensures Persisted(r)
    ensures NoDuplicates(s.tokens) ==> NoDuplicates(r.tokens)
  {
    var l := s.tokens + [a];
    s.(tokens := l, stored := Some(l))
  }

  /** The "Add Token" button: validates the typed address, then appends it
      unless it is already listed. */
  function AddToken(s: WatchState, chain: Chain, lib: Library): (r: Step<WatchState>)
    ensures s.newToken == "" ==> r == Step(s, [], None)
    ensures r.state.tokens == s.tokens || r.state.tokens == s.tokens + [s.newToken]
    ensures r.state.tokens != s.tokens <==>
              s.newToken != "" && s.newToken !in s.tokens
              && ValidateToken(chain, lib, s.newToken).data.Some?
    ensures r.state.tokens == s.tokens ==> r.state.stored == s.stored
    ensures r.state.tokens != s.tokens ==> r.state.stored == Some(r.state.tokens) && r.state.newToken == ""
    ensures r.state.tokens == s.tokens ==> r.state.newToken == s.newToken
    ensures s.newToken != "" ==> r.ops == ValidateToken(chain, lib, s.newToken).ops
    ensures r.alert.Some? <==> s.newToken != "" && ValidateToken(chain, lib, s.newToken).data.None?
    ensures Valid(s) ==> Valid(r.state)
    ensures s.newToken != "" ==> !r.state.loading
    ensures r.state.tokenData == s.tokenData && NoSubmission(r.ops)
  {
    if s.newToken == "" then Step(s, [], None)
    else
      var p := ValidateToken(chain, lib, s.newToken);
      if p.data.Some? then
        if s.newToken !in s.tokens then
          Step(Append(s, s.newToken).(newToken := "", loading := false), p.ops, None)
        else
          Step(s.(loading := false), p.ops, None)
      else
        Step(s.(loading := false), p.ops, Some(AddFailedAlert))
  }

  /** A click on a popular-token logo: skips everything, validation
      included, when the address is already listed. */
  function AddPopularToken(s: WatchState, address: string, chain: Chain, lib: Library): (r: Step<WatchState>)
    ensures address in s.tokens ==> r == Step(s, [], None)
    ensures r.state.tokens == s.tokens || r.state.tokens == s.tokens + [address]
    ensures r.state.tokens != s.tokens <==>
              address !in s.tokens && ValidateToken(chain, lib, address).data.Some?
    ensures r.state.tokens == s.tokens ==> r.state.stored == s.stored
    ensures r.state.tokens != s.tokens ==> r.state.stored == Some(r.state.tokens)
    ensures r.alert.Some? <==> address !in s.tokens && ValidateToken(chain, lib, address).data.None?
    ensures Valid(s) ==> Valid(r.state)
    ensures address !in s.tokens ==> !r.state.loading
    ensures r.state.newToken == s.newToken && r.state.tokenData == s.tokenData && NoSubmission(r.ops)
  {
    if address in s.tokens then Step(s, [], None)
    else
      var p := ValidateToken(chain, lib, address);
      if p.data.Some? then
        Step(Append(s, address).(loading := false), p.ops, None)
      else
        Step(s.(loading := false), p.ops, Some(PopularFailedAlert))
  }

  /** `tokens.filter((token) => token !== a)`. */
  function Without(ts: seq<string>, a: string): (r: seq<string>)
    ensures a !in r
    ensures forall x :: x in r <==> x in ts && x != a
    ensures forall x :: x != a ==> multiset(r)[x] == multiset(ts)[x]
    ensures a !in ts ==> r == ts
  {
    if ts == [] then []
    else
      assert ts == [ts[0]] + ts[1..];
      (if ts[0] == a then [] else [ts[0]]) + Without(ts[1..], a)
  }

  /** The remove button of a row: drops the address and writes the list
      through to storage, whether or not the address was listed. */
  function RemoveToken(s: WatchState, a: string): (r: Step<WatchState>)
    ensures r.state.tokens == Without(s.tokens, a)
    ensures a !in s.tokens ==> r.state.tokens == s.tokens
    ensures r.state.stored == Some(r.state.tokens)
    ensures NoDuplicates(s.tokens) ==> NoDuplicates(r.state.tokens)
    ensures Valid(s) ==> Valid(r.state)
    ensures r.ops == [] && r.alert == None
    ensures r.state.newToken == s.newToken && r.state.tokenData == s.tokenData && r.state.loading == s.loading
  {
    var l := Without(s.tokens, a);
    WithoutKeepsNoDuplicates(s.tokens, a);
    Step(s.(tokens := l, stored := Some(l)), [], None)
  }

  /** The table entry a refresh records for one token. */
  function Entry(chain: Chain, lib: Library, token: string): TokenData {
    match ValidateToken(chain, lib, token).data
    case Some(d) => d
    case None => ErrorData
  }

  /** The loop of the refresh over `ts`, in list order: the table it
      builds (later entries overwrite earlier ones) and the requests made. */
  datatype Sweep = Sweep(table: map<string, TokenData>, ops: seq<LedgerOp>)

  function Collect(chain: Chain, lib: Library, ts: seq<string>): (r: Sweep)
    requires chain.connected
    ensures r.table.Keys == set t | t in ts
    ensures forall t :: t in ts ==> r.table[t] == Entry(chain, lib, t)
    ensures NoSubmission(r.ops)
  {
    if ts == [] then Sweep(map[], [])
    else
      var last := ts[|ts| - 1];
      var prefix := Collect(chain, lib, ts[..|ts| - 1]);
      assert ts == ts[..|ts| - 1] + [last];
      Sweep(prefix.table[last := Entry(chain, lib, last)],
            prefix.ops + ValidateToken(chain, lib, last).ops)
  }

  /** The effect that re-reads every listed token: nothing without a
      provider, otherwise a fresh table.  The list itself is never touched. */
  function FetchTokenData(s: WatchState, chain: Chain, lib: Library): (r: Step<WatchState>)
    ensures r.state.(tokenData := s.tokenData) == s
    ensures !chain.connected ==> r == Step(s, [], None)
    ensures chain.connected ==>
              r.state.tokenData.Keys == set t | t in s.tokens
              && forall t :: t in s.tokens ==> t in r.state.tokenData && r.state.tokenData[t] == Entry(chain, lib, t)
    ensures Valid(s) ==> Valid(r.state)
    ensures NoSubmission(r.ops) && r.alert == None
  {
    if !chain.connected then Step(s, [], None)
    else
      var sweep := Collect(chain, lib, s.tokens);
      Step(s.(tokenData := sweep.table), sweep.ops, None)
  }

  lemma {:induction false} WithoutKeepsNoDuplicates(ts: seq<string>, a: string)
    ensures NoDuplicates(ts) ==> NoDuplicates(Without(ts, a))
  {
    if ts != [] && NoDuplicates(ts) {
      WithoutKeepsNoDuplicates(ts[1..], a);
      assert NoDuplicates(ts[1..]) by {
        assert forall i :: 0 <= i < |ts[1..]| ==> ts[1..][i] == ts[i + 1];
      }
      assert ts[0] !in ts[1..];
    }
  }

  /** Filtering is applied element by element, so it keeps the relative
      order of what it keeps. */
  lemma {:induction false} WithoutConcat(xs: seq<string>, ys: seq<string>, a: string)
    ensures Without(xs + ys, a) == Without(xs, a) + Without(ys, a)
  {
    if xs == [] {
      assert xs + ys == ys;
    } else {
      assert (xs + ys)[1..] == xs[1..] + ys;
      WithoutConcat(xs[1..], ys, a);
    }
  }

  /** Removing the address a successful add appended restores the list. */
  lemma AddThenRemove(s: WatchState, chain: Chain, lib: Library)
    requires s.newToken != "" && s.newToken !in s.tokens
    ensures RemoveToken(AddToken(s, chain, lib).state, s.newToken).state.tokens == s.tokens
  {
    var a := s.newToken;
    if ValidateToken(chain, lib, a).data.Some? {
      WithoutConcat(s.tokens, [a], a);
      assert Without([a], a) == [] by {
        assert [a][1..] == [];
      }
    }
  }

  /** Removing twice is removing once. */
  lemma RemoveIdempotent(s: WatchState, a: string)
    ensures RemoveToken(RemoveToken(s, a).state, a).state == RemoveToken(s, a).state
  {
  }

  /** A second click on the same popular token changes nothing: the address
      ends up listed exactly once however many times it is clicked. */
  lemma AddPopularTwice(s: WatchState, address: string, chain: Chain, lib: Library)
    requires Valid(s)
    ensures var once := AddPopularToken(s, address, chain, lib).state;
            AddPopularToken(once, address, chain, lib).state == once
            && (address in once.tokens ==> multiset(once.tokens)[address] == 1)
  {
    var once := AddPopularToken(s, address, chain, lib).state;
    if address in once.tokens {
      NoDuplicatesCountsOnce(once.tokens, address);
    }
  }

  lemma {:induction false} NoDuplicatesCountsOnce(ts: seq<string>, a: string)
    requires NoDuplicates(ts) && a in ts
    ensures multiset(ts)[a] == 1
  {
    assert ts == [ts[0]] + ts[1..];
    assert NoDuplicates(ts[1..]) by {
      assert forall i :: 0 <= i < |ts[1..]| ==> ts[1..][i] == ts[i + 1];
    }
    if ts[0] == a {
      assert a !in ts[1..];
    } else {
      NoDuplicatesCountsOnce(ts[1..], a);
    }
  }

  /** What the user can do on the watch-list screen. */
  datatype Event =
    | TypeAddress(text: string)
    | ClickAdd
    | ClickPopular(index: nat)
    | ClickRemove(address: string)
    | Refresh

  function Apply(s: WatchState, e: Event, chain: Chain, lib: Library): Step<WatchState> {
    match e
    case TypeAddress(text) => Step(s.(newToken := text), [], None)
    case ClickAdd => AddToken(s, chain, lib)
    case ClickPopular(i) =>
      if i < |PopularTokens.Catalogue()| then AddPopularToken(s, PopularTokens.CatalogueAddress(i), chain, lib)
      else Step(s, [], None)
    case ClickRemove(a) => RemoveToken(s, a)
    case Refresh => FetchTokenData(s, chain, lib)
  }

  /** The state after a sequence of events; `chains[i]` is the ledger as
      it stands when the i-th event happens, so the provider may appear
      after the first render and reads may change between actions. */
  function Run(s: WatchState, events: seq<Event>, chains: seq<Chain>, lib: Library): WatchState
    requires |chains| == |events|
    decreases |events|
  {
    if events == [] then s
    else Run(Apply(s, events[0], chains[0], lib).state, events[1..], chains[1..], lib)
  }

  /** After any sequence of user actions the list has no duplicate and
      storage restores exactly the in-memory list. */
  lemma {:induction false} RunKeepsValid(s: WatchState, events: seq<Event>, chains: seq<Chain>, lib: Library)
    requires Valid(s) && |chains| == |events|
    ensures Valid(Run(s, events, chains, lib))
    ensures Init(Run(s, events, chains, lib).stored).tokens == Run(s, events, chains, lib).tokens
    decreases |events|
  {
    if events != [] {
      RunKeepsValid(Apply(s, events[0], chains[0], lib).state, events[1..], chains[1..], lib);
    }
  }

  /** The refresh of a two-token list where the first token reads as
      ("Foo", "3.0") and the second token's name call throws: both stay
      listed, the second with the error placeholder. */
  lemma RefreshExample(lib: Library)
    requires lib.formatUnits(3000, 3) == "3.0"
    ensures
      var chain := Chain(true, "0xUser", Threw,
                         (t: string) => if t == "T1" then Returned("Foo") else Threw,
                         (t: string) => Returned(3),
                         (t: string, o: string) => Returned(3000),
                         (o: string) => Threw,
                         (t: string, o: string, sp: string) => Threw,
                         (q: TxRequest) => Threw,
                         (tx: SentTx) => Threw);
      var s := Init(Some(["T1", "T2"]));
      var r := FetchTokenData(s, chain, lib).state;
      r.tokens == ["T1", "T2"] && r.stored == Some(["T1", "T2"])
      && r.tokenData == map["T1" := TokenData("Foo", "3.0"), "T2" := ErrorData]
  {
  }
}
